=== FILE: README.md ===
# banner — a Dafny model of the glyph-composition engine

`banner` prints the first ten characters of its argument in large letters.
Each supported character (capital letters, digits and 32 punctuation
characters) has a glyph in a built-in font: seven rows of `#` and blanks,
one width per glyph. The program builds the banner row by row. It starts
from seven empty rows. For every input character it appends that
character's glyph row, then a two-column blank gutter, to the matching
banner row. Characters without a glyph are skipped.

The model has five modules:

- `Wrappers`: the `Option` type.
- `Letters` (letters.h): the font constants `Height` = 7, `SpaceWidth` = 2
  and `MaxPrintLetters` = 10.
  - The glyph rule `WellFormed`, and the type `Glyph` that only admits
    well-formed glyphs.
  - One constant per glyph, transcribed from the table.
  - The three table entries that break the rule, kept as written next to
    their corrections.
- `Font` (the `switch` of `add_to_banner`): the lookup from a character to
  its glyph.
- `Banner` (`init_banner`, `add_to_banner`, the loop in `main`): the
  composer.
  - Pure functions define it, and each is paired with a reference
    definition or an invariant.
  - Two methods follow the C loops statement by statement, and each is
    proved equal to the functional definition.
- `Cli` (`main`, `convert_to_upper`): argument classification, ASCII
  upper-casing, and the whole pipeline from `argv` to the rows printed or
  the usage exit.

The model departs from the written font in three places:

- The font header promises exactly seven rows per glyph, but the table
  breaks this for `^` (six rows) and for `+` and `=` (eight rows). The
  table is transcribed as written (see Findings), and the composer uses
  corrected seven-row glyphs for `^`, `+` and `=`.
- Where the source names a value that is defined in banner.h, the model
  takes the value from the comments in banner.c. This covers
  BANNER_SPACE_STR (one blank), `--help`, `--` and the two exit statuses.
  banner.h is not part of this model.
- The font header's list of characters contains 32 punctuation marks.
  Together with 26 letters and 10 digits, the switch covers exactly those
  68 characters.

## Model

| member | source | states |
|---|---|---|
| Font.Lookup | banner.c:294-503 | the switch finds a glyph exactly for the capital letters, the digits and the 32 punctuation characters listed in letters.h, and for nothing else; every character it finds a glyph for is `Supported` |
| Font.LookupAsWritten | banner.c:294-503 | the same switch over the tables as declared in letters.h: it covers the same characters, and every entry but `^` has at least seven rows |
| Font.LookupShape | letters.h:47-48 | every glyph the switch returns has seven rows of one common width, drawn only with ink and blanks |
| Font.LowercaseUnsupported | banner.c:94-97 | no lower-case letter has a glyph |
| Letters.SampleWidths | letters.h:97-641 | glyph widths differ: A is 7 wide, I is 3, K is 6, 0 is 6, 1 and 9 are 5, the double quote is 9 and the pipe is 3 |
| Font.AsWrittenTooShort | letters.h:433-439 | in the table as written, `^` is the only entry with fewer than seven rows |
| Font.AsWrittenTooTall | letters.h:481-497 | in the table as written, `+` and `=` are exactly the entries with more than seven rows |
| Font.AsWrittenAgrees | letters.h:97-641 | for every character except `^`, the first seven rows of the table as written equal the corrected glyph; this holds by construction of the corrected table. That the output is therefore unchanged rests on the loop at banner.c:505 reading only rows 0-6, which the lemma does not state |
| Letters.CaretRepaired | letters.h:433-439 | the caret as written has six rows and a 10-column third row; restoring the missing comma splits that row into rows 2 and 3 and leaves the other rows unchanged |
| Letters.TallGlyphsRepaired | letters.h:481-497 | plus and equals have eight rows as written, and the eighth row is blank; the corrected glyphs are their first seven rows |
| Banner.CaretAsWrittenBreaksLockstep | banner.c:505-519 | with the caret as written, row 0 grows by 7 columns but row 2 grows by 12, and there is no row 6 to read |
| Banner.CaretRepairedKeepsLockstep | banner.c:505-519 | with the corrected caret every row grows by the same 7 columns |
| Banner.InitBanner | banner.c:236-244 | the buffer starts with `height` rows, all empty |
| Banner.Gutter | banner.c:514-517 | `space` copies of the one-blank space string make `space` blank columns |
| Banner.AppendRow | banner.c:505-519 | one row after the append is the old row, then the glyph row, then `space` blanks, and has the summed length |
| Banner.AppendGlyph | banner.c:505-519 | row i becomes old row i, then glyph row i, then the gutter; every row grows by the glyph width plus the gutter |
| Banner.AddToBanner | banner.c:286-519 | a character without a glyph leaves the buffer unchanged and appends no gutter; a character with a glyph appends it to every row |
| Banner.AddToBannerRows | banner.c:286-519 | the lookup followed by the nested `strcat` loops computes exactly `AddToBanner` |
| Banner.AddToBannerLockstep | banner.c:505-519 | for any buffer, every row grows by the same advance (glyph width plus gutter, or 0); so rows of equal length stay equal |
| Banner.Compose | banner.c:198-203 | composing never shortens a row, and each starting row remains a prefix of its result |
| Banner.ComposeAppend | banner.c:198-203 | composition is a fold: composing s then t equals composing s + t |
| Banner.TextWidthAppend | banner.c:505-512 | the width added by a text is the sum of the per-character advances, taken left to right |
| Banner.ComposeRowLength | banner.c:198-203 | every row ends up as its starting length plus the total width (glyph width + gutter) of the known characters |
| Banner.ComposeLockstep | banner.c:198-203 | rows that start equal in length remain equal after any text |
| Banner.RowTextAppend | banner.c:505-519 | the reference row text of a text followed by one character is the row text of the text followed by that character's piece |
| Banner.AddToBannerRow | banner.c:294-519 | one call extends row i by exactly the character's piece of row i: its glyph row and gutter, or nothing for an unknown character |
| Banner.ComposeRows | banner.c:198-203 | row i of a banner composed from scratch is the left-to-right concatenation of glyph row i plus gutter for each known character |
| Banner.ComposeSkipsUnsupported | banner.c:500-503 | deleting an unknown character anywhere in the text does not change the banner |
| Banner.ComposeUnsupportedOnly | banner.c:500-503 | a text made only of unknown characters leaves the buffer unchanged |
| Banner.Truncate | banner.c:198 | the loop reads at most ten characters, and they are a prefix of the text |
| Banner.RenderIgnoresTail | banner.c:198 | anything after the tenth character has no effect on the banner |
| Banner.RenderCountsPositions | banner.c:198-203 | the cap counts input positions, not printed glyphs: ten unknown characters leave the banner empty whatever follows them |
| Banner.RenderTenOfEleven | banner.c:198 | "ABCDEFGHIJK" prints the same banner as "ABCDEFGHIJ" |
| Banner.Render | banner.c:190-203 | the banner for an upper-cased text has seven rows, all of the same length |
| Banner.RenderRows | banner.c:190-203 | row i of the banner is the independently defined left-to-right row text (glyph row i plus gutter for each known character) of the first ten characters |
| Banner.RenderLockstep | banner.c:191-203 | the printed banner has seven rows, each as long as the total width of the accepted characters |
| Banner.ComposeBanner | banner.c:191-203 | `init_banner` followed by the loop in `main` computes exactly the rendered banner |
| Banner.RenderABRow | banner.c:61-85 | row i for "AB" is A's row i, two blanks, B's row i, two blanks |
| Banner.SpellAB | letters.h:97-111 | the rows of A and B with their gutters spell the strings of the worked example |
| Banner.WorkedExampleAB | banner.c:61-85 | "AB" renders as the seven rows shown in the comment at the top of banner.c |
| Banner.RenderHi | banner.c:198-203 | "HI" renders as seven rows of 7 + 2 + 3 + 2 = 14 columns |
| Banner.RenderDropsLowercase | banner.c:500-503 | "AaB" reaching the composer renders the same as "AB" |
| Cli.ClassifyArgs | banner.c:147-183 | a banner is drawn exactly when there is one argument other than `--help`, or the two arguments `--` `--help`; the drawn text is the last argument; the usage text exits normally exactly for the single argument `--help` |
| Cli.ClassifyArgsCases | banner.c:147-183 | the text `--help` can only be reached through `--`; no arguments, more than two arguments, or two arguments not starting with `--` are usage errors |
| Cli.ToUpper | banner.c:258 | a lower-case ASCII letter moves to its capital; every other character is unchanged |
| Cli.ConvertToUpper | banner.c:252-260 | the length is kept, each lower-case letter becomes its own capital (code point lowered by 32), everything else is unchanged, and no lower-case letter remains |
| Cli.ConvertToUpperIdempotent | banner.c:252-260 | upper-casing twice is the same as once |
| Cli.ConvertToUpperInPlace | banner.c:252-260 | the in-place loop computes `ConvertToUpper` |
| Cli.Run | banner.c:120-210 | a banner is printed exactly for one argument other than `--help` or for `--` `--help`; the usage text exits normally exactly for the single argument `--help`; the printed rows are the banner of the upper-cased last argument, seven rows of equal length |
| Cli.CaseFolding | banner.c:190-203 | the argument "ab" prints the same banner as "AB" |
| Cli.RunHelpCases | banner.c:147-172 | `--help` exits normally with the usage text, `--` `--help` prints the banner of "--HELP", and no argument is a usage error |
| Cli.BannerMain | banner.c:120-212 | `main`'s sequence of classify, upper-case, initialise, compose computes `Run` |

## Left out

- `print_banner` and `usage` write to standard output. The model ends with
  the rows to print, or with the usage exit status.
- `calloc`, `realloc`, `strcat` and BANNER_DEF_SIZE only decide where the
  characters are stored. Rows are immutable strings in the model, so
  allocation failure is not modelled.
- banner.h is not part of this model. Its strings and exit codes are named
  constants whose values come from the comments in banner.c. The RCS
  identifier and copyright strings are left out.
- With the caret as written, the source reads past the end of `char_crrt`
  on row 6, which is undefined behaviour in C. The model cannot give that
  read a value. It records the six-row entry and composes with the
  corrected glyph instead.
- Banner.AddToBanner: requires the buffer to have at most seven rows. The
  C function takes `height` separately, and a larger height would read past
  every glyph array.
- Cli.ToUpper: models `toupper` in the C locale only. Other locales could
  also map characters outside ASCII.
- C strings end at the first NUL, and the argument strings have none. The
  model's strings therefore have no terminator, and `strlen` is their
  length.
- Input is taken to be ASCII: one model character stands for one byte of
  `argv`. The C program works on bytes, so for a multi-byte (for example
  UTF-8) argument its `strlen` and the ten-position cap count bytes where
  the model would count characters; such input is outside the model.
- `main` with an `argc` of 0 dereferences `argv[0]` for the usage text. The
  model takes the program name as opaque and only classifies.

## Findings

| source | as written | input that shows it | evidently intended | confidence | as-written member | corrected member |
|---|---|---|---|---|---|---|
| letters.h:433-439 | a missing comma after `"#   #"` joins two literals into one row, so `char_crrt` has 6 rows and its third row is 10 wide | the argument `^` (row 2 grows by 12 columns and row 0 by 7; row 6 reads past the array) | seven rows of width 5, the third row being `"#   #"` | high, not executed | Font.AsWrittenTooShort, Banner.CaretAsWrittenBreaksLockstep | Letters.CaretRepaired, Banner.CaretRepairedKeepsLockstep |
| letters.h:481-497 | `char_plus` and `char_equl` have 8 rows, against the header's rule of exactly 7 | the arguments `+` and `=` (only rows 0-6 are ever read) | seven rows; the extra eighth row is blank | medium, not executed; no effect on output | Font.AsWrittenTooTall | Letters.TallGlyphsRepaired, Font.AsWrittenAgrees |

=== FILE: banner.dfy ===
/** The banner composer of banner.c: the buffer starts as `Height` empty rows
    (`init_banner`), and every character of the input appends its glyph row by
    row followed by a blank gutter (`add_to_banner`).  Rows are immutable
    strings here; the source's `calloc`/`realloc`/`strcat` only change where
    the same characters are stored. */
module Banner {
  import opened Wrappers
  import opened Letters
  import opened Font

  /** The banner being built: one row per glyph row. */
  type Buffer = seq<Row>

  /** BANNER_SPACE_STR, appended `space` times after each glyph.  Its value
      lives in banner.h, which is not part of this model; the worked example
      in banner.c shows one blank column per copy. */
  const SpaceStr: string := " "

  /** All rows of a buffer have the same length. */
  predicate Lockstep(b: Buffer) {
    forall i | 0 <= i < |b| :: |b[i]| == |b[0]|
  }

  /** `init_banner`: `height` rows, all empty. */
  function InitBanner(height: nat): (b: Buffer)
    ensures |b| == height
    ensures forall i | 0 <= i < height :: b[i] == ""
  {
    seq(height, _ => "")
  }

  /** `space` copies of SpaceStr, the gutter after a glyph. */
  function Gutter(space: nat): (s: Row)
    ensures |s| == space
    ensures forall k | 0 <= k < space :: s[k] == Background
  {
    if space == 0 then "" else Gutter(space - 1) + SpaceStr
  }

  /** One step of the loop in `add_to_banner`: the old row, then the glyph
      row, then the gutter. */
  function AppendRow(row: Row, glyphRow: Row, space: nat): (r: Row)
    ensures |r| == |row| + |glyphRow| + space
    ensures r[..|row|] == row
    ensures r[|row|..|row| + |glyphRow|] == glyphRow
    ensures forall k | |row| + |glyphRow| <= k < |r| :: r[k] == Background
  {
    row + glyphRow + Gutter(space)
  }

  /** The loop of `add_to_banner` for a glyph that was found: row i of the
      buffer becomes row i, then glyph row i, then the gutter. */
  function AppendGlyph(b: Buffer, g: Glyph, space: nat): (r: Buffer)
    requires |b| <= Height
    ensures |r| == |b|
    ensures forall i | 0 <= i < |b| ::
      && |r[i]| == |b[i]| + Width(g) + space
      && r[i][..|b[i]|] == b[i]
      && r[i][|b[i]|..|b[i]| + Width(g)] == g[i]
      && forall k | |b[i]| + Width(g) <= k < |r[i]| :: r[i][k] == Background
  {
    seq(|b|, i requires 0 <= i < |b| => AppendRow(b[i], g[i], space))
  }

  /** `add_to_banner`: a character the font does not know leaves the buffer
      exactly as it was, gutter included; a known one appends its glyph. */
  function AddToBanner(b: Buffer, space: nat, letter: char): (r: Buffer)
    requires |b| <= Height
    ensures |r| == |b|
    ensures !Supported(letter) ==> r == b
    ensures Supported(letter) ==> Lookup(letter).Some? && r == AppendGlyph(b, Lookup(letter).value, space)
  {
    match Lookup(letter)
    case None => b
    case Some(g) => AppendGlyph(b, g, space)
  }

  /** Columns one character adds to every row: its glyph width plus the
      gutter, or nothing when the character is dropped. */
  function Advance(letter: char, space: nat): nat {
    match Lookup(letter)
    case None => 0
    case Some(g) => Width(g) + space
  }

  /** Total columns a text adds to every row, summed left to right. */
  function TextWidth(text: string, space: nat): nat {
    if text == [] then 0 else Advance(text[0], space) + TextWidth(text[1..], space)
  }

  /** Row `i` of a banner written from scratch: the glyph rows of the known
      characters of `text`, in input order, each followed by its gutter. */
  function RowText(text: string, i: nat, space: nat): Row
    requires i < Height
  {
    if text == [] then "" else Piece(text[0], i, space) + RowText(text[1..], i, space)
  }

  /** What one character contributes to row `i`: its glyph row and the
      gutter, or nothing when the font does not know it. */
  function Piece(letter: char, i: nat, space: nat): Row
    requires i < Height
  {
    match Lookup(letter)
    case None => ""
    case Some(g) => g[i] + Gutter(space)
  }

  /** Successive `add_to_banner` calls over `text`: a left fold, so the
      last character is the last one appended. */
  function Compose(b: Buffer, text: string, space: nat): (r: Buffer)
    requires |b| <= Height
    ensures |r| == |b|
    ensures forall i | 0 <= i < |b| :: |b[i]| <= |r[i]| && r[i][..|b[i]|] == b[i]
    decreases |text|
  {
    if text == [] then b
    else AddToBanner(Compose(b, text[..|text| - 1], space), space, text[|text| - 1])
  }

  /** The characters of `text` the loop in `main` hands to `add_to_banner`:
      positions 0 up to the cap, whether or not the font knows them. */
  function Truncate(text: string): (t: string)
    ensures |t| <= MaxPrintLetters
    ensures |t| == |text| || |t| == MaxPrintLetters
    ensures t <= text
  {
    if |text| <= MaxPrintLetters then text else text[..MaxPrintLetters]
  }

  /** The banner `main` prints for an already upper-cased string: `Height`
      rows that all have the same length. */
  function Render(text: string): (r: Buffer)
    ensures |r| == Height && Lockstep(r)
  {
    ComposeLockstep(InitBanner(Height), Truncate(text), SpaceWidth);
    Compose(InitBanner(Height), Truncate(text), SpaceWidth)
  }

  // Properties of one call.

  lemma AddToBannerLockstep(b: Buffer, space: nat, letter: char)
    requires |b| <= Height
    ensures forall i | 0 <= i < |b| :: |AddToBanner(b, space, letter)[i]| == |b[i]| + Advance(letter, space)
    ensures Lockstep(b) ==> Lockstep(AddToBanner(b, space, letter))
  {
  }

  // Properties of composition.

  lemma {:induction false} TextWidthAppend(text: string, letter: char, space: nat)
    ensures TextWidth(text + [letter], space) == TextWidth(text, space) + Advance(letter, space)
    decreases |text|
  {
    if text == [] {
      assert [] + [letter] == [letter];
    } else {
      assert (text + [letter])[1..] == text[1..] + [letter];
      TextWidthAppend(text[1..], letter, space);
    }
  }

  /** Every row grows by the same amount: the sum, over the characters the
      font knows, of glyph width plus gutter. */
  lemma {:induction false} ComposeRowLength(b: Buffer, text: string, space: nat)
    requires |b| <= Height
    ensures forall i | 0 <= i < |b| :: |Compose(b, text, space)[i]| == |b[i]| + TextWidth(text, space)
    decreases |text|
  {
    if text != [] {
      var init, last := text[..|text| - 1], text[|text| - 1];
      assert text == init + [last];
      ComposeRowLength(b, init, space);
      TextWidthAppend(init, last, space);
    }
  }

  /** Rows that start equal in length stay equal in length. */
  lemma ComposeLockstep(b: Buffer, text: string, space: nat)
    requires |b| <= Height
    requires Lockstep(b)
    ensures Lockstep(Compose(b, text, space))
  {
    ComposeRowLength(b, text, space);
  }

  lemma {:induction false} ComposeAppend(b: Buffer, s: string, t: string, space: nat)
    requires |b| <= Height
    ensures Compose(b, s + t, space) == Compose(Compose(b, s, space), t, space)
    decreases |t|
  {
    if t == [] {
      assert s + t == s;
    } else {
      var init, last := t[..|t| - 1], t[|t| - 1];
      assert (s + t)[..|s + t| - 1] == s + init;
      assert (s + t)[|s + t| - 1] == last;
      ComposeAppend(b, s, init, space);
    }
  }

  /** Dropping a character the font does not know changes nothing. */
  lemma ComposeSkipsUnsupported(b: Buffer, s: string, letter: char, t: string, space: nat)
    requires |b| <= Height
    requires !Supported(letter)
    ensures Compose(b, s + [letter] + t, space) == Compose(b, s + t, space)
  {
    ComposeAppend(b, s + [letter], t, space);
    ComposeAppend(b, s, [letter], space);
    ComposeAppend(b, s, t, space);
    assert [letter][..0] == [];
  }

  lemma {:induction false} RowTextAppend(text: string, letter: char, i: nat, space: nat)
    requires i < Height
    ensures RowText(text + [letter], i, space)
         == RowText(text, i, space) + RowText([letter], i, space)
    decreases |text|
  {
    if text == [] {
      assert [] + [letter] == [letter];
    } else {
      var head, rest := text[0], text[1..];
      assert (text + [letter])[0] == head;
      assert (text + [letter])[1..] == rest + [letter];
      RowTextAppend(rest, letter, i, space);
      calc {
        RowText(text + [letter], i, space);
        Piece(head, i, space) + RowText(rest + [letter], i, space);
        Piece(head, i, space) + (RowText(rest, i, space) + RowText([letter], i, space));
        (Piece(head, i, space) + RowText(rest, i, space)) + RowText([letter], i, space);
        RowText(text, i, space) + RowText([letter], i, space);
      }
    }
  }

  /** One `add_to_banner` call extends row i by exactly that character's
      piece of row i. */
  lemma AddToBannerRow(b: Buffer, space: nat, letter: char, i: nat)
    requires |b| <= Height && i < |b|
    ensures AddToBanner(b, space, letter)[i] == b[i] + Piece(letter, i, space)
  {
    match Lookup(letter)
    case None =>
    case Some(g) =>
      assert AddToBanner(b, space, letter)[i] == AppendRow(b[i], g[i], space);
  }

  /** Row i of a banner composed from scratch is the left-to-right
      concatenation of row i of each known character's glyph and its gutter. */
  lemma {:induction false} ComposeRows(text: string, i: nat, space: nat)
    requires i < Height
    ensures Compose(InitBanner(Height), text, space)[i] == RowText(text, i, space)
    decreases |text|
  {
    if text != [] {
      var init, last := text[..|text| - 1], text[|text| - 1];
      assert text == init + [last];
      ComposeRows(init, i, space);
      RowTextAppend(init, last, i, space);
      AddToBannerRow(Compose(InitBanner(Height), init, space), space, last, i);
      assert RowText([last], i, space) == Piece(last, i, space) + RowText([], i, space);
    }
  }

  /** A text of characters the font does not know leaves the buffer as it was. */
  lemma {:induction false} ComposeUnsupportedOnly(b: Buffer, text: string, space: nat)
    requires |b| <= Height
    requires forall k | 0 <= k < |text| :: !Supported(text[k])
    ensures Compose(b, text, space) == b
    decreases |text|
  {
    if text != [] {
      ComposeUnsupportedOnly(b, text[..|text| - 1], space);
    }
  }

  // Properties of the loop in `main`.

  /** Only the first MaxPrintLetters positions matter. */
  lemma RenderIgnoresTail(text: string, tail: string)
    requires |text| >= MaxPrintLetters
    ensures Render(text + tail) == Render(text)
  {
    assert Truncate(text + tail) == Truncate(text) by {
      assert (text + tail)[..MaxPrintLetters] == text[..MaxPrintLetters];
    }
  }

  /** A character the font does not know still uses up one of the slots: ten
      blanks push any later letter out of the banner. */
  lemma RenderCountsPositions(text: string)
    requires |text| >= MaxPrintLetters
    requires forall k | 0 <= k < MaxPrintLetters :: !Supported(text[k])
    ensures Render(text) == InitBanner(Height)
  {
    ComposeUnsupportedOnly(InitBanner(Height), Truncate(text), SpaceWidth);
  }

  /** Every row of a rendered banner has the same length, the total width of
      the accepted characters. */
  lemma RenderLockstep(text: string)
    ensures |Render(text)| == Height
    ensures forall i | 0 <= i < Height :: |Render(text)[i]| == TextWidth(Truncate(text), SpaceWidth)
    ensures Lockstep(Render(text))
  {
    ComposeRowLength(InitBanner(Height), Truncate(text), SpaceWidth);
  }

  /** Row i of the printed banner is the reference row text of the
      characters the loop reads. */
  lemma RenderRows(text: string, i: nat)
    requires i < Height
    ensures Render(text)[i] == RowText(Truncate(text), i, SpaceWidth)
  {
    ComposeRows(Truncate(text), i, SpaceWidth);
  }

  // The loops of the source, statement by statement.

  /** `add_to_banner` as the source runs it: look the letter up, then for
      every row `strcat` the glyph row and `space` copies of SpaceStr. */
  method AddToBannerRows(banner: Buffer, height: nat, space: nat, letter: char) returns (r: Buffer)
    requires height == |banner| <= Height
    ensures r == AddToBanner(banner, space, letter)
  {
    r := banner;
    var found := Lookup(letter);
    if found.None? {
      return;
    }
    var g := found.value;
    var i := 0;
    while i < height
      invariant 0 <= i <= height
      invariant |r| == height
      invariant forall j | 0 <= j < i :: r[j] == AppendRow(banner[j], g[j], space)
      invariant forall j | i <= j < height :: r[j] == banner[j]
    {
      var row := r[i] + g[i];
      var k := 0;
      while k < space
        invariant 0 <= k <= space
        invariant row == banner[i] + g[i] + Gutter(k)
      {
        row := row + SpaceStr;
        k := k + 1;
      }
      r := r[i := row];
      i := i + 1;
    }
    assert r == AppendGlyph(banner, g, space);
  }

  /** `init_banner` followed by the loop of `main` (banner.c:191-203). */
  method ComposeBanner(text: string) returns (banner: Buffer)
    ensures banner == Render(text)
  {
    banner := InitBanner(Height);
    var i := 0;
    while i < |text| && i < MaxPrintLetters
      invariant 0 <= i <= |text| && i <= MaxPrintLetters
      invariant |banner| == Height
      invariant banner == Compose(InitBanner(Height), text[..i], SpaceWidth)
    {
      assert text[..i + 1][..i] == text[..i];
      banner := AddToBannerRows(banner, Height, SpaceWidth, text[i]);
      i := i + 1;
    }
    assert text[..i] == Truncate(text);
  }

  // Concrete banners.

  /** Row i of the banner for "AB": row i of A, two blanks, row i of B, two
      blanks. */
  lemma RenderABRow(i: nat)
    requires i < Height
    ensures Render("AB")[i] == GlyphA[i] + "  " + GlyphB[i] + "  "
  {
    ComposeRows("AB", i, SpaceWidth);
    assert "AB"[1..] == "B";
    assert Gutter(2) == "  ";
  }

  /** The seven rows of the "AB" example, spelled out. */
  lemma SpellAB()
    ensures GlyphA[0] + "  " + GlyphB[0] + "  " == "   #     ######   "
    ensures GlyphA[1] + "  " + GlyphB[1] + "  " == "  # #    #     #  "
    ensures GlyphA[2] + "  " + GlyphB[2] + "  " == " #   #   #     #  "
    ensures GlyphA[3] + "  " + GlyphB[3] + "  " == "#     #  ######   "
    ensures GlyphA[4] + "  " + GlyphB[4] + "  " == "#######  #     #  "
    ensures GlyphA[5] + "  " + GlyphB[5] + "  " == "#     #  #     #  "
    ensures GlyphA[6] + "  " + GlyphB[6] + "  " == "#     #  ######   "
  {
  }

  /** The worked example in the comment at the top of banner.c, row by row. */
  lemma WorkedExampleAB()
    ensures |Render("AB")| == Height
    ensures Render("AB")[0] == "   #     ######   "
    ensures Render("AB")[1] == "  # #    #     #  "
    ensures Render("AB")[2] == " #   #   #     #  "
    ensures Render("AB")[3] == "#     #  ######   "
    ensures Render("AB")[4] == "#######  #     #  "
    ensures Render("AB")[5] == "#     #  #     #  "
    ensures Render("AB")[6] == "#     #  ######   "
  {
    RenderABRow(0);
    RenderABRow(1);
    RenderABRow(2);
    RenderABRow(3);
    RenderABRow(4);
    RenderABRow(5);
    RenderABRow(6);
    SpellAB();
  }

  /** Seven rows of 7 + 2 + 3 + 2 columns for "HI". */
  lemma RenderHi()
    ensures |Render("HI")| == Height
    ensures forall i | 0 <= i < Height :: |Render("HI")[i]| == 14
  {
    RenderLockstep("HI");
    assert "HI"[1..] == "I";
  }

  /** The eleventh character is never looked at. */
  lemma RenderTenOfEleven()
    ensures Render("ABCDEFGHIJK") == Render("ABCDEFGHIJ")
  {
    RenderIgnoresTail("ABCDEFGHIJ", "K");
    assert "ABCDEFGHIJ" + "K" == "ABCDEFGHIJK";
  }

  /** The caret as written breaks the lockstep: on an empty buffer the row
      loop would give row 0 seven columns but row 2 twelve, and row 6 has no
      glyph row to read at all. */
  lemma CaretAsWrittenBreaksLockstep()
    ensures |AppendRow("", CaretAsWritten[0], SpaceWidth)| == 7
    ensures |AppendRow("", CaretAsWritten[2], SpaceWidth)| == 12
    ensures |CaretAsWritten| < Height
  {
  }

  /** With the comma restored every row gains the same seven columns. */
  lemma CaretRepairedKeepsLockstep()
    ensures forall i | 0 <= i < Height :: |AppendRow("", GlyphCaret[i], SpaceWidth)| == 7
  {
  }

  /** A lower-case letter reaching the composer vanishes without a trace. */
  lemma RenderDropsLowercase()
    ensures Render("AaB") == Render("AB")
  {
    ComposeSkipsUnsupported(InitBanner(Height), "A", 'a', "B", SpaceWidth);
    assert "A" + ['a'] + "B" == "AaB";
    assert "A" + "B" == "AB";
  }
}

=== FILE: cli.dfy ===
/** The glue in `main` (banner.c): deciding from the arguments whether to
    print a banner or the usage text, upper-casing the text
    (`convert_to_upper`), and handing it to the composer.  Printing itself
    (`print_banner`, `usage`) is output only; the model stops at the rows to
    be printed or the exit status chosen. */
module Cli {
  import opened Letters
  import opened Banner

  /** BANNER_ARG_HELP_STR and BANNER_ARG_IGNORE_STR.  Their values live in
      banner.h, which is not part of this model; they are the ones the
      comment in `main` names. */
  const HelpArg: string := "--help"
  const IgnoreArg: string := "--"

  /** BANNER_NORMAL_EXIT and BANNER_ERROR_EXIT (values in banner.h). */
  datatype ExitStatus = NormalExit | ErrorExit

  /** What `main` does with its arguments. */
  datatype Action = RenderText(text: string) | ShowUsage(status: ExitStatus)

  /** The argument checks of `main`; `argv[0]` is the program name. */
  function ClassifyArgs(argv: seq<string>): (a: Action)
    ensures a.RenderText? <==>
      || (|argv| == 2 && argv[1] != HelpArg)
      || (|argv| == 3 && argv[1] == IgnoreArg && argv[2] == HelpArg)
    ensures a.RenderText? ==> a.text == argv[|argv| - 1]
    ensures a == ShowUsage(NormalExit) <==> |argv| == 2 && argv[1] == HelpArg
  {
    if |argv| < 2 then ShowUsage(ErrorExit)
    else if |argv| == 2 then
      if argv[1] == HelpArg then ShowUsage(NormalExit) else RenderText(argv[1])
    else if |argv| == 3 then
      if argv[1] == IgnoreArg && argv[2] == HelpArg then RenderText(argv[2]) else ShowUsage(ErrorExit)
    else ShowUsage(ErrorExit)
  }

  /** The text "--help" reaches the composer only through "-- --help";
      every other outcome besides a render is a usage error unless the single
      argument was "--help". */
  lemma ClassifyArgsCases(argv: seq<string>)
    ensures ClassifyArgs(argv) == RenderText(HelpArg) ==> |argv| == 3 && argv[1] == IgnoreArg
    ensures |argv| < 2 || |argv| > 3 ==> ClassifyArgs(argv) == ShowUsage(ErrorExit)
    ensures |argv| == 3 && argv[1] != IgnoreArg ==> ClassifyArgs(argv) == ShowUsage(ErrorExit)
    ensures ClassifyArgs(argv).ShowUsage? && ClassifyArgs(argv).status == NormalExit ==> argv == [argv[0], HelpArg]
  {
  }

  predicate IsLower(c: char) {
    'a' <= c <= 'z'
  }

  /** `toupper` in the C locale: only the 26 ASCII lower-case letters move. */
  function ToUpper(c: char): (u: char)
    ensures IsLower(c) ==> IsUpper(u) && u as int == c as int - ('a' as int - 'A' as int)
    ensures !IsLower(c) ==> u == c
  {
    if IsLower(c) then (c as int - ('a' as int - 'A' as int)) as char else c
  }

  /** `convert_to_upper`: the same string with every lower-case letter
      replaced by its capital. */
  function ConvertToUpper(s: string): (u: string)
    ensures |u| == |s|
    ensures forall i | 0 <= i < |s| :: IsLower(s[i]) ==> IsUpper(u[i])
    ensures forall i | 0 <= i < |s| ::
      IsLower(s[i]) ==> u[i] as int == s[i] as int - ('a' as int - 'A' as int)
    ensures forall i | 0 <= i < |s| :: !IsLower(s[i]) ==> u[i] == s[i]
    ensures forall i | 0 <= i < |u| :: !IsLower(u[i])
  {
    seq(|s|, i requires 0 <= i < |s| => ToUpper(s[i]))
  }

  lemma ConvertToUpperIdempotent(s: string)
    ensures ConvertToUpper(ConvertToUpper(s)) == ConvertToUpper(s)
  {
  }

  /** The loop of `convert_to_upper`, one position at a time. */
  method ConvertToUpperInPlace(s: string) returns (u: string)
    ensures u == ConvertToUpper(s)
  {
    u := s;
    var i := 0;
    while i < |u|
      invariant 0 <= i <= |u| == |s|
      invariant forall j | 0 <= j < i :: u[j] == ToUpper(s[j])
      invariant forall j | i <= j < |u| :: u[j] == s[j]
    {
      u := u[i := ToUpper(u[i])];
      i := i + 1;
    }
  }

  /** What the program ends with: the rows it prints, or the usage text and
      an exit status. */
  datatype Outcome = Printed(rows: seq<Row>) | Usage(status: ExitStatus)

  /** `main` from its arguments to its effect: the banner of the upper-cased
      last argument, which always has `Height` rows of one common length. */
  function Run(argv: seq<string>): (o: Outcome)
    ensures o.Printed? <==>
      || (|argv| == 2 && argv[1] != HelpArg)
      || (|argv| == 3 && argv[1] == IgnoreArg && argv[2] == HelpArg)
    ensures o == Usage(NormalExit) <==> |argv| == 2 && argv[1] == HelpArg
    ensures o.Printed? ==> |o.rows| == Height && Lockstep(o.rows)
    ensures o.Printed? ==> o.rows == Render(ConvertToUpper(argv[|argv| - 1]))
  {
    match ClassifyArgs(argv)
    case ShowUsage(status) => Usage(status)
    case RenderText(text) =>
      RenderLockstep(ConvertToUpper(text));
      Printed(Render(ConvertToUpper(text)))
  }

  /** Lower-case input prints the same banner as its capitals. */
  lemma CaseFolding(program: string)
    ensures Run([program, "ab"]) == Run([program, "AB"])
  {
    assert ConvertToUpper("ab") == "AB";
    assert ConvertToUpper("AB") == "AB";
  }

  lemma RunHelpCases(program: string)
    ensures Run([program, HelpArg]) == Usage(NormalExit)
    ensures Run([program, IgnoreArg, HelpArg]) == Printed(Render("--HELP"))
    ensures Run([program]) == Usage(ErrorExit)
  {
    assert ConvertToUpper(HelpArg) == "--HELP";
  }

  /** `main` as the source runs it. */
  method BannerMain(argv: seq<string>) returns (outcome: Outcome)
    ensures outcome == Run(argv)
  {
    var action := ClassifyArgs(argv);
    if action.ShowUsage? {
      return Usage(action.status);
    }
    var text := ConvertToUpperInPlace(action.text);
    var banner := ComposeBanner(text);
    outcome := Printed(banner);
  }
}

=== FILE: font.dfy ===
/** The glyph selection of `add_to_banner` (banner.c), and the two tables it
    can be read against: the font as the source declares it and the corrected
    font the rest of the model uses. */
module Font {
  import opened Wrappers
  import opened Letters

  /** The `switch` of `add_to_banner`: the glyph for a character, or None for
      a character the font does not know (which the composer then drops).
      It covers exactly the characters the header lists. */
  function Lookup(c: char): (r: Option<Glyph>)
    ensures r.Some? <==> Supported(c)
  {
    match c
    case 'A' => Some(GlyphA)
    case 'B' => Some(GlyphB)
    case 'C' => Some(GlyphC)
    case 'D' => Some(GlyphD)
    case 'E' => Some(GlyphE)
    case 'F' => Some(GlyphF)
    case 'G' => Some(GlyphG)
    case 'H' => Some(GlyphH)
    case 'I' => Some(GlyphI)
    case 'J' => Some(GlyphJ)
    case 'K' => Some(GlyphK)
    case 'L' => Some(GlyphL)
    case 'M' => Some(GlyphM)
    case 'N' => Some(GlyphN)
    case 'O' => Some(GlyphO)
    case 'P' => Some(GlyphP)
    case 'Q' => Some(GlyphQ)
    case 'R' => Some(GlyphR)
    case 'S' => Some(GlyphS)
    case 'T' => Some(GlyphT)
    case 'U' => Some(GlyphU)
    case 'V' => Some(GlyphV)
    case 'W' => Some(GlyphW)
    case 'X' => Some(GlyphX)
    case 'Y' => Some(GlyphY)
    case 'Z' => Some(GlyphZ)
    case '0' => Some(Glyph0)
    case '1' => Some(Glyph1)
    case '2' => Some(Glyph2)
    case '3' => Some(Glyph3)
    case '4' => Some(Glyph4)
    case '5' => Some(Glyph5)
    case '6' => Some(Glyph6)
    case '7' => Some(Glyph7)
    case '8' => Some(Glyph8)
    case '9' => Some(Glyph9)
    case '#' => Some(GlyphHash)
    case '~' => Some(GlyphTilde)
    case '!' => Some(GlyphExclamation)
    case '@' => Some(GlyphAt)
    case '$' => Some(GlyphDollar)
    case '%' => Some(GlyphPercent)
    case '^' => Some(GlyphCaret)
    case '&' => Some(GlyphAmpersand)
    case '*' => Some(GlyphStar)
    case ')' => Some(GlyphRightParen)
    case '(' => Some(GlyphLeftParen)
    case '_' => Some(GlyphUnderscore)
    case '+' => Some(GlyphPlus)
    case '=' => Some(GlyphEquals)
    case '}' => Some(GlyphRightBrace)
    case '{' => Some(GlyphLeftBrace)
    case ']' => Some(GlyphRightBracket)
    case '[' => Some(GlyphLeftBracket)
    case '|' => Some(GlyphPipe)
    case '\\' => Some(GlyphBackslash)
    case ':' => Some(GlyphColon)
    case ';' => Some(GlyphSemicolon)
    case '"' => Some(GlyphDoubleQuote)
    case '\'' => Some(GlyphSingleQuote)
    case '`' => Some(GlyphBacktick)
    case '>' => Some(GlyphRightArrow)
    case '<' => Some(GlyphLeftArrow)
    case '.' => Some(GlyphPeriod)
    case ',' => Some(GlyphComma)
    case '?' => Some(GlyphQuestion)
    case '/' => Some(GlyphSlash)
    case '-' => Some(GlyphDash)
    case _ => None
  }

  /** The lookup exactly as the source tables declare the glyphs: it differs
      from `Lookup` only at the three defective entries. */
  function LookupAsWritten(c: char): (r: Option<seq<Row>>)
    ensures r.Some? <==> Supported(c)
    ensures r.Some? && c != '^' ==> |r.value| >= Height
  {
    match c
    case '^' => Some(CaretAsWritten)
    case '+' => Some(PlusAsWritten)
    case '=' => Some(EqualsAsWritten)
    case _ => match Lookup(c) case None => None case Some(g) => Some(g)
  }

  /** Every glyph the switch hands out has `Height` rows of one width, drawn
      only in ink and background. */
  lemma LookupShape(c: char)
    ensures Lookup(c).Some? ==>
      && |Lookup(c).value| == Height
      && forall i | 0 <= i < Height ::
           |Lookup(c).value[i]| == Width(Lookup(c).value) && InkOnly(Lookup(c).value[i])
  {
  }

  /** Lower-case letters have no glyph: `main` must upper-case first. */
  lemma LowercaseUnsupported(c: char)
    requires 'a' <= c <= 'z'
    ensures Lookup(c).None?
  {
  }

  // The defective entries of the table as written.

  /** `^` is the one entry with fewer rows than the loop of `add_to_banner`
      reads, so that loop indexes past the end of its array. */
  lemma AsWrittenTooShort(c: char)
    ensures LookupAsWritten(c).Some? && |LookupAsWritten(c).value| < Height <==> c == '^'
  {
  }

  /** `+` and `=` are the entries with more rows than are ever read. */
  lemma AsWrittenTooTall(c: char)
    ensures LookupAsWritten(c).Some? && |LookupAsWritten(c).value| > Height <==> c == '+' || c == '='
  {
  }

  /** For every character but `^`, reading the first `Height` rows of the
      table as written gives exactly the corrected glyph, so the banner is the
      same whichever table is used. */
  lemma AsWrittenAgrees(c: char)
    requires c != '^'
    ensures LookupAsWritten(c).Some? <==> Lookup(c).Some?
    ensures LookupAsWritten(c).Some? ==>
      |LookupAsWritten(c).value| >= Height && LookupAsWritten(c).value[..Height] == Lookup(c).value
  {
  }
}

=== FILE: letters.dfy ===
/** The built-in font of the banner program (letters.h).

    A glyph is a column of `Height` rows drawn with `#` (ink) and space
    (background).  All glyphs share the one height; each has its own width.
    The font covers the capital letters, the digits and 32 punctuation
    characters.

    The type `Glyph` only admits well-formed row sequences, so every glyph
    constant below is checked on its own and every glyph handed out by the
    lookup is well formed by its type.  Three entries of the source table do
    not meet the header's own rule; they are kept as written under "Defects"
    at the end of this module, next to the corrected glyphs the model uses. */
module Letters {

  /** One row of a glyph or of the banner being built. */
  type Row = string

  /** BANNER_LETTER_HEIGHT: every glyph has exactly this many rows. */
  const Height: nat := 7

  /** BANNER_SPACE_WIDTH: blank columns appended after every glyph. */
  const SpaceWidth: nat := 2

  /** BANNER_MAX_PRINT_LETTERS: only this many leading input characters are used. */
  const MaxPrintLetters: nat := 10

  const Ink: char := '#'
  const Background: char := ' '

  predicate InkOnly(row: Row) {
    forall k | 0 <= k < |row| :: row[k] == Ink || row[k] == Background
  }

  /** The rule the header states for every glyph: exactly `Height` rows, one
      width shared by all of them, nothing but ink and background. */
  predicate WellFormed(rows: seq<Row>) {
    && |rows| == Height
    && forall i | 0 <= i < |rows| :: |rows[i]| == |rows[0]| && InkOnly(rows[i])
  }

  type Glyph = rows: seq<Row> | WellFormed(rows) witness ["", "", "", "", "", "", ""]

  function Width(g: Glyph): nat {
    |g[0]|
  }

  predicate IsUpper(c: char) {
    'A' <= c <= 'Z'
  }

  predicate IsDigit(c: char) {
    '0' <= c <= '9'
  }

  /** The 32 punctuation characters the header lists, in its order. */
  predicate IsPunctuation(c: char) {
    || c == '#' || c == '~' || c == '!' || c == '@' || c == '$' || c == '%'
    || c == '^' || c == '&' || c == '*' || c == ')' || c == '(' || c == '_'
    || c == '+' || c == '=' || c == '}' || c == '{' || c == ']' || c == '['
    || c == '|' || c == '\\' || c == ':' || c == ';' || c == '"' || c == '\''
    || c == '`' || c == '>' || c == '<' || c == '.' || c == ',' || c == '?'
    || c == '/' || c == '-'
  }

  /** The characters the font defines a glyph for. */
  predicate Supported(c: char) {
    IsUpper(c) || IsDigit(c) || IsPunctuation(c)
  }

  const GlyphA: Glyph := ["   #   ",
                          "  # #  ",
                          " #   # ",
                          "#     #",
                          "#######",
                          "#     #",
                          "#     #"]

  const GlyphB: Glyph := ["###### ",
                          "#     #",
                          "#     #",
                          "###### ",
                          "#     #",
                          "#     #",
                          "###### "]

  const GlyphC: Glyph := [" ##### ",
                          "#     #",
                          "#      ",
                          "#      ",
                          "#      ",
                          "#     #",
                          " ##### "]

  const GlyphD: Glyph := ["###### ",
                          "#     #",
                          "#     #",
                          "#     #",
                          "#     #",
                          "#     #",
                          "###### "]

  const GlyphE: Glyph := ["#######",
                          "#      ",
                          "#      ",
                          "#####  ",
                          "#      ",
                          "#      ",
                          "#######"]

  const GlyphF: Glyph := ["#######",
                          "#      ",
                          "#      ",
                          "#####  ",
                          "#      ",
                          "#      ",
                          "#      "]

  const GlyphG: Glyph := [" ##### ",
                          "#     #",
                          "#      ",
                          "#  ####",
                          "#     #",
                          "#     #",
                          " ##### "]

  const GlyphH: Glyph := ["#     #",
                          "#     #",
                          "#     #",
                          "#######",
                          "#     #",
                          "#     #",
                          "#     #"]

  const GlyphI: Glyph := ["###",
                          " # ",
                          " # ",
                          " # ",
                          " # ",
                          " # ",
                          "###"]

  const GlyphJ: Glyph := ["      #",
                          "      #",
                          "      #",
                          "      #",
                          "#     #",
                          "#     #",
                          " ##### "]

  const GlyphK: Glyph := ["#    #",
                          "#   # ",
                          "#  #  ",
                          "###   ",
                          "#  #  ",
                          "#   # ",
                          "#    #"]

  const GlyphL: Glyph := ["#      ",
                          "#      ",
                          "#      ",
                          "#      ",
                          "#      ",
                          "#      ",
                          "#######"]

  const GlyphM: Glyph := ["#     #",
                          "##   ##",
                          "# # # #",
                          "#  #  #",
                          "#     #",
                          "#     #",
                          "#     #"]

  const GlyphN: Glyph := ["#     #",
                          "##    #",
                          "# #   #",
                          "#  #  #",
                          "#   # #",
                          "#    ##",
                          "#     #"]

  const GlyphO: Glyph := ["#######",
                          "#     #",
                          "#     #",
                          "#     #",
                          "#     #",
                          "#     #",
                          "#######"]

  const GlyphP: Glyph := ["###### ",
                          "#     #",
                          "#     #",
                          "###### ",
                          "#      ",
                          "#      ",
                          "#      "]

  const GlyphQ: Glyph := [" ##### ",
                          "#     #",
                          "#     #",
                          "#     #",
                          "#   # #",
                          "#    # ",
                          " #### #"]

  const GlyphR: Glyph := ["###### ",
                          "#     #",
                          "#     #",
                          "###### ",
                          "#   #  ",
                          "#    # ",
                          "#     #"]

  const GlyphS: Glyph := [" ##### ",
                          "#     #",
                          "#      ",
                          " ##### ",
                          "      #",
                          "#     #",
                          " ##### "]

  const GlyphT: Glyph := ["#######",
                          "   #   ",
                          "   #   ",
                          "   #   ",
                          "   #   ",
                          "   #   ",
                          "   #   "]

  const GlyphU: Glyph := ["#     #",
                          "#     #",
                          "#     #",
                          "#     #",
                          "#     #",
                          "#     #",
                          " ##### "]

  const GlyphV: Glyph := ["#     #",
                          "#     #",
                          "#     #",
                          "#     #",
                          " #   # ",
                          "  # #  ",
                          "   #   "]

  const GlyphW: Glyph := ["#     #",
                          "#  #  #",
                          "#  #  #",
                          "#  #  #",
                          "#  #  #",
                          "#  #  #",
                          " ## ## "]

  const GlyphX: Glyph := ["#     #",
                          " #   # ",
                          "  # #  ",
                          "   #   ",
                          "  # #  ",
                          " #   # ",
                          "#     #"]

  const GlyphY: Glyph := ["#     #",
                          " #   # ",
                          "  # #  ",
                          "   #   ",
                          "   #   ",
                          "   #   ",
                          "   #   "]

  const GlyphZ: Glyph := ["#######",
                          "     # ",
                          "    #  ",
                          "  #    ",
                          " #     ",
                          "#      ",
                          "#######"]

  const Glyph0: Glyph := [" #### ",
                          "#   ##",
                          "#  # #",
                          "# #  #",
                          "##   #",
                          "#    #",
                          " #### "]

  const Glyph1: Glyph := ["  #  ",
                          " ##  ",
                          "# #  ",
                          "  #  ",
                          "  #  ",
                          "  #  ",
                          "#####"]

  const Glyph2: Glyph := [" ### ",
                          "#   #",
                          "#   #",
                          "   # ",
                          "  #  ",
                          " #   ",
                          "#####"]

  const Glyph3: Glyph := [" ### ",
                          "#   #",
                          "    #",
                          " ### ",
                          "    #",
                          "#   #",
                          " ### "]

  const Glyph4: Glyph := ["#   #",
                          "#   #",
                          "#   #",
                          "#####",
                          "    #",
                          "    #",
                          "    #"]

  const Glyph5: Glyph := ["#####",
                          "#    ",
                          "#    ",
                          "#####",
                          "    #",
                          "    #",
                          "#####"]

  const Glyph6: Glyph := [" ### ",
                          "#   #",
                          "#    ",
                          "#### ",
                          "#   #",
                          "#   #",
                          " ### "]

  const Glyph7: Glyph := ["#####",
                          "    #",
                          "   # ",
                          "  #  ",
                          " #   ",
                          " #   ",
                          " #   "]

  const Glyph8: Glyph := [" ### ",
                          "#   #",
                          "#   #",
                          " ### ",
                          "#   #",
                          "#   #",
                          " ### "]

  const Glyph9: Glyph := [" ### ",
                          "#   #",
                          "#   #",
                          " ### ",
                          "   # ",
                          "  #  ",
                          "#    "]

  const GlyphHash: Glyph := ["  # #  ",
                             "  # #  ",
                             "#######",
                             "  # #  ",
                             "#######",
                             "  # #  ",
                             "  # #  "]

  const GlyphTilde: Glyph := [" ##    ",
                              "#  #  #",
                              "    ## ",
                              "       ",
                              "       ",
                              "       ",
                              "       "]

  const GlyphExclamation: Glyph := [" ### ",
                                    " ### ",
                                    " ### ",
                                    "  #  ",
                                    "     ",
                                    " ### ",
                                    " ### "]

  const GlyphAt: Glyph := [" ##### ",
                           "#     #",
                           "# ### #",
                           "# ### #",
                           "# #### ",
                           "#      ",
                           " ##### "]

  const GlyphDollar: Glyph := [" ##### ",
                               "#  #  #",
                               "#  #   ",
                               " ##### ",
                               "   #  #",
                               "#  #  #",
                               " ##### "]

  const GlyphPercent: Glyph := ["###   #",
                                "# #  # ",
                                "### #  ",
                                "   #   ",
                                "  # ###",
                                " #  # #",
                                "#   ###"]

  // The caret of letters.h:433-439: see the defects section below

  const GlyphAmpersand: Glyph := ["  ##   ",
                                  " #  #  ",
                                  "  ##   ",
                                  " ###   ",
                                  "#   # #",
                                  "#    # ",
                                  " ###  #"]

  const GlyphStar: Glyph := ["       ",
                             " #   # ",
                             "  # #  ",
                             "#######",
                             "  # #  ",
                             " #   # ",
                             "       "]

  const GlyphRightParen: Glyph := ["##  ",
                                   "  # ",
                                   "   #",
                                   "   #",
                                   "   #",
                                   "  # ",
                                   "##  "]

  const GlyphLeftParen: Glyph := ["  ##",
                                  " #  ",
                                  "#   ",
                                  "#   ",
                                  "#   ",
                                  " #  ",
                                  "  ##"]

  const GlyphUnderscore: Glyph := ["     ",
                                   "     ",
                                   "     ",
                                   "     ",
                                   "     ",
                                   "     ",
                                   "#####"]

  // The plus of letters.h:481-488: see the defects section below

  // The equals of letters.h:490-497: see the defects section below

  const GlyphRightBrace: Glyph := ["###  ",
                                   "   # ",
                                   "   # ",
                                   "   ##",
                                   "   # ",
                                   "   # ",
                                   "###  "]

  const GlyphLeftBrace: Glyph := ["  ###",
                                  " #   ",
                                  " #   ",
                                  "##   ",
                                  " #   ",
                                  " #   ",
                                  "  ###"]

  const GlyphRightBracket: Glyph := ["#####",
                                     "    #",
                                     "    #",
                                     "    #",
                                     "    #",
                                     "    #",
                                     "#####"]

  const GlyphLeftBracket: Glyph := ["#####",
                                    "#    ",
                                    "#    ",
                                    "#    ",
                                    "#    ",
                                    "#    ",
                                    "#####"]

  const GlyphPipe: Glyph := [" # ",
                             " # ",
                             " # ",
                             "   ",
                             " # ",
                             " # ",
                             " # "]

  const GlyphBackslash: Glyph := ["#      ",
                                  " #     ",
                                  "  #    ",
                                  "   #   ",
                                  "    #  ",
                                  "     # ",
                                  "      #"]

  const GlyphColon: Glyph := [" ### ",
                              " ### ",
                              " ### ",
                              "     ",
                              " ### ",
                              " ### ",
                              " ### "]

  const GlyphSemicolon: Glyph := [" ### ",
                                  " ### ",
                                  "     ",
                                  " ### ",
                                  " ### ",
                                  "  #  ",
                                  " #   "]

  const GlyphDoubleQuote: Glyph := [" ### ### ",
                                    " ### ### ",
                                    "  #   #  ",
                                    "         ",
                                    "         ",
                                    "         ",
                                    "         "]

  const GlyphSingleQuote: Glyph := [" ### ",
                                    " ### ",
                                    "  #  ",
                                    " #   ",
                                    "     ",
                                    "     ",
                                    "     "]

  const GlyphBacktick: Glyph := [" ### ",
                                 " ### ",
                                 "  #  ",
                                 "   # ",
                                 "     ",
                                 "     ",
                                 "     "]

  const GlyphRightArrow: Glyph := [" #    ",
                                   "  #   ",
                                   "   #  ",
                                   "    # ",
                                   "   #  ",
                                   "  #   ",
                                   " #    "]

  const GlyphLeftArrow: Glyph := ["    # ",
                                  "   #  ",
                                  "  #   ",
                                  " #    ",
                                  "  #   ",
                                  "   #  ",
                                  "    # "]

  const GlyphPeriod: Glyph := ["     ",
                               "     ",
                               "     ",
                               "     ",
                               " ### ",
                               " ### ",
                               " ### "]

  const GlyphComma: Glyph := ["     ",
                              "     ",
                              "     ",
                              " ### ",
                              " ### ",
                              "  #  ",
                              " #   "]

  const GlyphQuestion: Glyph := [" ##### ",
                                 "#     #",
                                 "      #",
                                 "   ### ",
                                 "   #   ",
                                 "       ",
                                 "   #   "]

  const GlyphSlash: Glyph := ["      #",
                              "     # ",
                              "    #  ",
                              "   #   ",
                              "  #    ",
                              " #     ",
                              "#      "]

  const GlyphDash: Glyph := ["       ",
                             "       ",
                             "       ",
                             "#######",
                             "       ",
                             "       ",
                             "       "]

  // Defects.  The header demands `Height` rows for every glyph; three
  // entries of the source table break that rule.

  /** `char_crrt` as the C compiler reads it: the comma after the third
      string is missing, so the third and fourth literals are concatenated
      into one 10-column row and the glyph has only six rows. */
  const CaretAsWritten: seq<Row> := ["  #  ",
                                     " # # ",
                                     "#   #" + "     ",
                                     "     ",
                                     "     ",
                                     "     "]

  /** `char_plus` and `char_equl` as written: eight rows each. */
  const PlusAsWritten: seq<Row> := ["       ",
                                    "   #   ",
                                    "   #   ",
                                    " ##### ",
                                    "   #   ",
                                    "   #   ",
                                    "       ",
                                    "       "]

  const EqualsAsWritten: seq<Row> := ["       ",
                                      "       ",
                                      " ##### ",
                                      "       ",
                                      " ##### ",
                                      "       ",
                                      "       ",
                                      "       "]

  /** The caret with the missing comma restored: seven rows of width 5. */
  const GlyphCaret: Glyph := ["  #  ",
                              " # # ",
                              "#   #",
                              "     ",
                              "     ",
                              "     ",
                              "     "]

  /** Plus and equals cut to the `Height` rows the composer reads. */
  const GlyphPlus: Glyph := PlusAsWritten[..Height]

  const GlyphEquals: Glyph := EqualsAsWritten[..Height]

  /** Restoring the missing comma splits the 10-column row of the caret as
      written into rows 2 and 3 and leaves the other rows in place. */
  lemma CaretRepaired()
    ensures |CaretAsWritten| == Height - 1 && |CaretAsWritten[2]| == 10
    ensures !WellFormed(CaretAsWritten)
    ensures GlyphCaret[..2] == CaretAsWritten[..2]
    ensures GlyphCaret[2] + GlyphCaret[3] == CaretAsWritten[2]
    ensures GlyphCaret[4..] == CaretAsWritten[3..]
  {
  }

  /** The surplus eighth rows of plus and equals are blank, so cutting them
      loses nothing that could have been printed. */
  lemma TallGlyphsRepaired()
    ensures |PlusAsWritten| == |EqualsAsWritten| == Height + 1
    ensures !WellFormed(PlusAsWritten) && !WellFormed(EqualsAsWritten)
    ensures PlusAsWritten[Height] == EqualsAsWritten[Height] == "       "
    ensures GlyphPlus == PlusAsWritten[..Height] && GlyphEquals == EqualsAsWritten[..Height]
  {
  }

  /** Widths vary from glyph to glyph; only the height is shared. */
  lemma SampleWidths()
    ensures Width(GlyphA) == 7 && Width(GlyphI) == 3 && Width(GlyphK) == 6
    ensures Width(Glyph0) == 6 && Width(Glyph1) == 5 && Width(Glyph9) == 5
    ensures Width(GlyphDoubleQuote) == 9 && Width(GlyphPipe) == 3
  {
  }
}

=== FILE: wrappers.dfy ===
/** The optional-value type the model uses for "no glyph for this character". */
module Wrappers {

  datatype Option<+T> = None | Some(value: T)
}
